=== FILE: README.md ===
# Haunted CLI emulator: a verified model of its shell core

The emulator is a React component that imitates a Unix terminal over an
in-memory filesystem and "haunts" it with timed events. This project models
the part of `src/components/CLIEmulator.tsx` that is logic rather than
presentation:

- **Paths** (`paths.dfy`): JavaScript `split`/`join`/`lastIndexOf` on path
  strings, and `resolvePath`, which turns a command argument into an absolute
  key of the filesystem.
- **FileSystem** (`filesystem.dfy`): the filesystem object as a map from
  path to node together with its key order (`Object.keys` lists keys in
  insertion order, and the random deletion pick indexes that list); the seed
  tree; the two updates the program ever makes (planting a file under an
  existing directory, deleting a file); the filter that chooses deletion
  candidates; and the tree invariant both updates keep: every name a
  directory lists is an entry, every entry but `/` is listed once in the
  directory it lives in.
- **Shell** (`shell.dfy`): the tokeniser (`cmd.trim().split(/\s+/)`, over
  JavaScript's full white-space set) and `Interpret`, the meaning of one
  command line: `ls`, `cd`, `pwd`, `cat`, `clear`, `help`, the empty command
  and unknown commands, with their exact output texts.
- **Terminal** (`terminal.dfy`): the `Session` class with the fields the
  component keeps in state (`fs`, `cwd`, `history`). `Execute` is
  `executeCommand` written branch by branch (every builtin's checks and
  messages spelled out in the method, not delegated to the functions
  `Interpret` uses) and proved to compute what `Interpret` specifies;
  `Submit` is the blank-input guard of the Enter key;
  `InsertGhostFile`, `RemoveFile`, `RemoveRandomFile` and `GhostCd` are the
  haunting's updates and `Haunt` is one haunting event. Every method keeps
  `Valid()`: the filesystem is a tree, the seed directories still exist and
  the working directory is an existing directory.

Every random choice of the source (`Math.random`) is an index argument whose
precondition is the range the source draws it from. Lookups `fileSystem[p]`
are map membership: every key the program looks up starts with `/`, so the
properties JavaScript objects inherit never answer a lookup.

Two details of `ls` follow the code exactly: without an argument, a missing
working directory is named by its own path in the error message
(`args[0] || lsPath`), and a file reached without an argument would be shown
by its last path segment. In a session the working directory is always a
directory, so that last case never arises (`Execute` proves it dead).

## Model

| member | source | states |
|---|---|---|
| Paths.Split | src/components/CLIEmulator.tsx:249 | `split('/')` yields at least one piece and no piece contains the separator |
| Paths.JoinSplit | src/components/CLIEmulator.tsx:249-251 | joining the pieces of a split with the separator gives the string back, for every string |
| Paths.SplitJoin | src/components/CLIEmulator.tsx:249-251 | splitting a join of separator-free pieces gives the pieces back |
| Paths.Join | src/components/CLIEmulator.tsx:251 | `parts.join(sep)`; its meaning is fixed by `Paths.JoinSplit` and `Paths.SplitJoin` as the inverse of `split` |
| Paths.NonEmpty | src/components/CLIEmulator.tsx:249 | `filter(p => p)`: only non-empty pieces, each taken from the input (its own ensures); `Paths.NonEmptyAppend` shows it keeps their order |
| Paths.DropLast | src/components/CLIEmulator.tsx:250 | `parts.pop()` for its effect: every remaining piece was in the input (its own ensures); its ensures also state that the result is one shorter (empty for the empty list) and agrees with the input at every position, so exactly the last segment is dropped |
| Paths.Segments | src/components/CLIEmulator.tsx:249 | `split('/').filter(p => p)` keeps only non-empty, slash-free segments |
| Paths.IsAbsolute | src/components/CLIEmulator.tsx:245 | `path.startsWith('/')`; `Paths.Resolve` returns such an argument unchanged and keeps an absolute `cwd` absolute |
| Paths.LastIndexOf | src/components/CLIEmulator.tsx:127 | `lastIndexOf('/')` is -1 or a position holding `/` with no `/` after it |
| Paths.NameOf | src/components/CLIEmulator.tsx:128 | the file name cut after the last slash contains no slash |
| Paths.DirOf | src/components/CLIEmulator.tsx:127 | `substring(0, lastIndexOf('/'))`, `""` without a slash; `Paths.ChildPathParts` gives its value on `dir/name` and `Paths.ParentChildPath` the converse |
| Paths.ChildPath | src/components/CLIEmulator.tsx:256 | the resolver's `/name` or `cwd/name`; `Paths.Resolve` states it as the result for every relative name, `Paths.ChildPathParts` inverts it |
| Paths.ChildPathParts | src/components/CLIEmulator.tsx:127-128 | cutting `dir/name` at its last slash gives back `dir` and `name` (directory part `""` under `/`) |
| Paths.ParentChildPath | src/components/CLIEmulator.tsx:154-155 | a path rebuilds from its directory part and name |
| Paths.Resolve | src/components/CLIEmulator.tsx:244-257 | an absolute argument is returned unchanged, `.` gives `cwd`, `..` gives the canonical path of `cwd`'s segments minus the last, any other relative argument gives exactly `/arg` under `/` and `cwd/arg` elsewhere (so its segments follow `cwd`'s), and the result of an absolute `cwd` is absolute |
| Paths.AscendReachesRoot | src/components/CLIEmulator.tsx:248-252 | `..` applied at least as many times as `cwd` has segments (and at least once) reaches `/` |
| Paths.RootIsFixed | src/components/CLIEmulator.tsx:248-251 | `..` from `/` is `/` |
| Paths.UpDropsOne | src/components/CLIEmulator.tsx:248-251 | `..` removes exactly one segment, and none at `/` |
| Paths.UpUndoesDown | src/components/CLIEmulator.tsx:248-256 | resolving a single name and then `..` returns to a canonical `cwd` |
| Paths.NoInteriorNormalisation | src/components/CLIEmulator.tsx:256 | for every `cwd` and every relative argument, the argument ends the result verbatim (interior `.`/`..`, doubled and trailing slashes kept) after one slash that follows `cwd` |
| Paths.SegmentsOfChildPath | src/components/CLIEmulator.tsx:256 | the segments of `cwd/arg` are those of `cwd` followed by those of `arg` |
| FileSystem.Without | src/components/CLIEmulator.tsx:162 | filtering a name out keeps exactly the other names and keeps them distinct |
| FileSystem.WithoutMiddle | src/components/CLIEmulator.tsx:162 | filtering out the one occurrence of a name leaves the other names in their order |
| FileSystem.WithoutAppended | src/components/CLIEmulator.tsx:135-162 | filtering out a name just appended to a list without it gives the list back |
| FileSystem.WithoutAbsent | src/components/CLIEmulator.tsx:162 | filtering out an absent name changes nothing |
| FileSystem.Node | src/components/CLIEmulator.tsx:4-8 | the `FileSystemItem` record: kind, children and content, with a field the source leaves undefined held as the empty list or string, which every use of it in the source treats alike |
| FileSystem.InsertEntry | src/components/CLIEmulator.tsx:130-143 | the planting update; its exact effect is stated by `FileSystem.InsertEntryEffect`, its invariant by `FileSystem.InsertKeepsWellFormed`, and its inverse by `FileSystem.RemoveUndoesInsert` |
| FileSystem.RemoveEntry | src/components/CLIEmulator.tsx:157-167 | the deletion update; its exact effect is stated by `FileSystem.RemoveEntryEffect`, its invariant by `FileSystem.RemoveKeepsWellFormed`, and `FileSystem.RootFilesNeverDeleted` gives its no-op case |
| FileSystem.Store.Set | src/components/CLIEmulator.tsx:133-140 | assignment stores the node at the key and keeps the key list in step with the map |
| FileSystem.Store.Delete | src/components/CLIEmulator.tsx:164 | `delete` removes the key from the map and the key list in step |
| FileSystem.EmptyPathAbsent | src/components/CLIEmulator.tsx:154-160 | in a well-formed tree the directory part `""` of a top-level path is never an entry |
| FileSystem.InsertEntryEffect | src/components/CLIEmulator.tsx:130-143 | planting is a no-op when the parent is absent or already lists the name; otherwise the keys gain exactly the path, it holds the file, the parent's children gain the name at the end, and every other entry is unchanged |
| FileSystem.InsertKeepsWellFormed | src/components/CLIEmulator.tsx:130-143 | planting under a directory keeps the tree invariant, keeps every existing entry and its kind, leaves the name listed, and a real change stores a fresh file |
| FileSystem.InsertKeepsDirectories | src/components/CLIEmulator.tsx:117-146 | planting under a seed directory keeps the tree, the seed directories and the working directory |
| FileSystem.RemoveEntryEffect | src/components/CLIEmulator.tsx:157-167 | deleting is a no-op when the parent is absent; otherwise the path is gone, the parent's children lose exactly that name and keep the others in order, and every other entry is unchanged |
| FileSystem.RemoveKeepsWellFormed | src/components/CLIEmulator.tsx:157-167 | deleting a file keeps the tree invariant and every other entry with its kind, so no directory is ever deleted |
| FileSystem.RemoveKeepsDirectories | src/components/CLIEmulator.tsx:148-169 | deleting a file keeps the tree, the seed directories and the working directory |
| FileSystem.RootFilesNeverDeleted | src/components/CLIEmulator.tsx:154-160 | a file directly under `/` is never deleted, because its directory part `""` is no entry |
| FileSystem.RemoveUndoesInsert | src/components/CLIEmulator.tsx:130-167 | planting a fresh file and deleting it gives back the same map and the same key order |
| FileSystem.Candidates | src/components/CLIEmulator.tsx:149-151 | the candidates are exactly the keys that are files whose path contains neither `WHO_AM_I` nor `HELP`, and distinct keys give distinct candidates |
| FileSystem.RemovalCandidates | src/components/CLIEmulator.tsx:149-151 | over a consistent key list, a path is a candidate exactly when it is such a file, and each candidate appears once |
| FileSystem.Contains | src/components/CLIEmulator.tsx:150 | `p.includes(sub)`; `FileSystem.ContainsAt` states that an occurrence at any position makes it hold |
| FileSystem.Removable | src/components/CLIEmulator.tsx:150 | the filter condition: a file whose path includes neither `WHO_AM_I` nor `HELP`; `FileSystem.Candidates` and `Terminal.ProtectedGhostFiles` state what it admits and excludes |
| FileSystem.ContainsAt | src/components/CLIEmulator.tsx:150 | a string holding `sub` at some position `includes` it |
| FileSystem.SeedValid | src/components/CLIEmulator.tsx:25-86 | the seed's key list names each of its entries exactly once |
| FileSystem.SeedAllListed | src/components/CLIEmulator.tsx:25-86 | every seed entry but `/` is listed by its directory |
| FileSystem.SeedChildrenExist | src/components/CLIEmulator.tsx:25-86 | every name a seed directory lists is a seed entry |
| FileSystem.SeedChildrenUnique | src/components/CLIEmulator.tsx:25-86 | no seed directory lists a name twice |
| FileSystem.SeedWellFormed | src/components/CLIEmulator.tsx:25-86 | the seed is a well-formed tree |
| FileSystem.SeedHasSeedDirs | src/components/CLIEmulator.tsx:25-86 | the eight seed directories are directories of the seed |
| FileSystem.HomeDir | src/components/CLIEmulator.tsx:24 | the initial working directory `/home/user`, also the target of a bare `cd` (line 281, stated by `Shell.CdAloneGoesHome`) |
| FileSystem.Seed | src/components/CLIEmulator.tsx:25-86 | the initial filesystem: its paths, kinds, children lists and file contents equal the literal of the cited lines character for character, keys in the literal's order; `FileSystem.SeedWellFormed` and `FileSystem.SeedHasSeedDirs` state its shape |
| Shell.Words | src/components/CLIEmulator.tsx:260 | every token is a non-empty run without white space |
| Shell.IsSpace | src/components/CLIEmulator.tsx:260 | the ECMAScript WhiteSpace and LineTerminator code points (tab, line feed, vertical tab, form feed, carriage return, space, U+00A0, U+1680, U+2000-U+200A, U+2028, U+2029, U+202F, U+205F, U+3000, U+FEFF), the set both `trim` and `\s` use |
| Shell.Blank | src/components/CLIEmulator.tsx:344 | `input.trim()` is empty: every character is white space; `Shell.WordsBlank` and `Shell.Tokens` state that exactly such lines have no words, and `Terminal.Session.Submit` drops them |
| Shell.Tokens | src/components/CLIEmulator.tsx:260 | there is at least one token; the tokens are `[""]` exactly for a blank line, and words otherwise |
| Shell.WordsBlank | src/components/CLIEmulator.tsx:260 | a line has no words exactly when it is all white space |
| Shell.WordsSkipBlank | src/components/CLIEmulator.tsx:260 | leading white space does not change the tokens |
| Shell.WordsDropBlank | src/components/CLIEmulator.tsx:260 | trailing white space does not change the tokens |
| Shell.WordsOfJoin | src/components/CLIEmulator.tsx:260 | words joined by single spaces tokenise back to the same words |
| Shell.PaddingIgnored | src/components/CLIEmulator.tsx:260 | white space around a line never changes how it is read |
| Shell.TokensOfLine | src/components/CLIEmulator.tsx:260-262 | `command arg` reads as the command and its one argument |
| Shell.FirstArg | src/components/CLIEmulator.tsx:261-262 | `args[0]`, with `""` for a missing argument (tokens are never empty, so `""` is the falsy case); `Shell.TokensOfLine` gives the argument of `command arg` |
| Shell.Interpret | src/components/CLIEmulator.tsx:259-340 | the `switch` of `executeCommand`; its meaning is stated command by command by `Shell.LsCases`, `Shell.NoOperand`, `Shell.CdMovesIffDirectory`, `Shell.CdAloneGoesHome`, `Shell.CatShowsOnlyFiles`, `Shell.ClearIffClearCommand`, `Shell.BlankLineIsEmptyCommand` and `Shell.UnknownCommand`, and across commands by `Shell.OnlyCdMoves` and `Shell.CwdStaysADirectory` |
| Shell.ListResult | src/components/CLIEmulator.tsx:267-276 | the `ls` case; stated by `Shell.LsCases`, `Shell.NoOperand` and `Shell.LsOfMissingDirectory` |
| Shell.Last | src/components/CLIEmulator.tsx:273 | the value of `.split('/').pop()`: the last piece of the split |
| Shell.ChangeDir | src/components/CLIEmulator.tsx:279-295 | the `cd` case; stated by `Shell.CdAloneGoesHome`, `Shell.CdMovesIffDirectory` and `Shell.CdDownThenUp` |
| Shell.CatResult | src/components/CLIEmulator.tsx:301-315 | the `cat` case; stated by `Shell.CatShowsOnlyFiles` and `Shell.NoOperand` |
| Shell.HelpText | src/components/CLIEmulator.tsx:322-328 | the `help` text, equal to the template literal of the cited lines character for character |
| Shell.ClearIffClearCommand | src/components/CLIEmulator.tsx:317-319 | a line clears the history exactly when its command is `clear` |
| Shell.BlankLineIsEmptyCommand | src/components/CLIEmulator.tsx:331-333 | a blank line is the empty command: empty output, same directory |
| Shell.UnknownCommand | src/components/CLIEmulator.tsx:335-336 | a command that is no builtin prints `<command>: command not found` and stays |
| Shell.OnlyCdMoves | src/components/CLIEmulator.tsx:279-295 | a command that changes the working directory is `cd` |
| Shell.CdAloneGoesHome | src/components/CLIEmulator.tsx:280-282 | `cd` without argument goes to `/home/user` from anywhere, with empty output |
| Shell.CdMovesIffDirectory | src/components/CLIEmulator.tsx:283-293 | `cd arg` moves to the resolved path when it is a directory, and otherwise stays and prints `No such file or directory` or `Not a directory` |
| Shell.CwdStaysADirectory | src/components/CLIEmulator.tsx:279-295 | from a directory, with the home directory present, every command ends in a directory |
| Shell.CatShowsOnlyFiles | src/components/CLIEmulator.tsx:304-313 | `cat arg` prints a file's content verbatim, `Is a directory` for a directory, and `No such file or directory` for a missing path |
| Shell.NoOperand | src/components/CLIEmulator.tsx:267-303 | without an argument `cat` prints `cat: missing file operand` and `ls` lists the working directory joined by two spaces |
| Shell.LsCases | src/components/CLIEmulator.tsx:267-276 | `ls arg` prints `ls: cannot access '<arg>': No such file or directory` for a missing target, the argument as typed for a file, and a directory's children in order joined by two spaces |
| Shell.LsOfMissingDirectory | src/components/CLIEmulator.tsx:268-271 | `ls` alone in a working directory that is no entry names that directory's path in the error |
| Shell.ListedNamesResolve | src/components/CLIEmulator.tsx:267-315 | in a well-formed tree every name `ls` lists exists: `cd name` enters it when it is a directory and `cat name` prints it when it is a file |
| Shell.CdDownThenUp | src/components/CLIEmulator.tsx:279-295 | `cd name` into a directory and then `cd ..` return to a canonical working directory |
| Terminal.GhostFileParts | src/components/CLIEmulator.tsx:118-128 | each planted path splits into a seed directory other than `/` and a name that rebuild it |
| Terminal.ProtectedGhostFiles | src/components/CLIEmulator.tsx:149-151 | the planted `WHO_AM_I.txt` and `HELP.txt` are never deletion candidates |
| Terminal.Entry | src/components/CLIEmulator.tsx:14-19 | the `HistoryEntry` record: command line, directory, result and the ghost flag (named `haunted`); `result` is always set by the source, so it is not optional here |
| Terminal.GhostFiles | src/components/CLIEmulator.tsx:118-124 | the five files a haunting can plant, paths and contents equal to the cited literal character for character; `Terminal.GhostFileParts` states where each lives |
| Terminal.GhostCommands | src/components/CLIEmulator.tsx:175 | the five commands a haunting replays, in the source's order |
| Terminal.GhostDirs | src/components/CLIEmulator.tsx:217 | the four directories a haunting moves to, in the source's order; `Terminal.Session.GhostCd` proves each exists in every session |
| Terminal.HauntedMessages | src/components/CLIEmulator.tsx:91-102 | the ten whispered messages, in the source's order |
| Terminal.Haunting | src/components/CLIEmulator.tsx:172-220 | the six entries of the `events` array, with the random choice each makes as its argument; `Terminal.Session.Haunt` states the effect of each |
| Terminal.GhostEntry | src/components/CLIEmulator.tsx:182-206 | the entry a haunting appends: empty command and directory, the ghost flag set; `Terminal.Session.Haunt` states each message it carries |
| Terminal.Step | src/components/CLIEmulator.tsx:264-339 | one command's effect on directory and history: `Terminal.StepAppendsOneEntry` states the one appended entry and the `clear` case, `Terminal.Session.Execute` is proved to compute it |
| Terminal.StepAppendsOneEntry | src/components/CLIEmulator.tsx:264-339 | every command but `clear` appends exactly one entry carrying the raw line, the directory before the command and the haunted flag; `clear` leaves an empty history |
| Terminal.Session.constructor | src/components/CLIEmulator.tsx:22-86 | a session starts with the seed, in `/home/user`, with no history, and is valid |
| Terminal.Session.Execute | src/components/CLIEmulator.tsx:259-340 | the method's own branches yield the directory and history `Interpret` specifies (one entry with the line, the prior directory and the exact message; `clear` empties the history), the filesystem is untouched, and validity is kept |
| Terminal.Session.Submit | src/components/CLIEmulator.tsx:342-349 | blank input changes nothing; other input is executed as a user command |
| Terminal.Session.InsertGhostFile | src/components/CLIEmulator.tsx:117-146 | the chosen ghost file's path is returned, the filesystem is the planting update of the old one, the file exists afterwards and is the planted one when it was new, and validity is kept |
| Terminal.Session.RemoveFile | src/components/CLIEmulator.tsx:154-167 | the filesystem is the deletion update of the old one and validity is kept |
| Terminal.Session.RemoveRandomFile | src/components/CLIEmulator.tsx:148-169 | with no candidate nothing changes; otherwise the chosen candidate is deleted; validity is kept |
| Terminal.Session.GhostCd | src/components/CLIEmulator.tsx:216-219 | the working directory becomes the chosen ghost directory, which exists, so validity is kept |
| Terminal.Session.Haunt | src/components/CLIEmulator.tsx:171-223 | each event's effect: a replayed command runs as a haunted command, a whisper, materialisation or deletion appends its exact message entry after its update, a glitch changes no session state, and a wander changes only the directory |

## Left out

- Rendering, JSX, input focus and scrolling (`src/components/CLIEmulator.tsx:351-423`): presentation only.
- Timers and probability gates (`src/components/CLIEmulator.tsx:225-242`, `177`, `213`): `Haunt` takes the event to perform; the 500 ms delay before a replayed ghost command is not modelled, the command runs on the state current when it runs.
- `Math.random`: every choice is an index argument with a range precondition.
- `corruptText` and the glitch overlay text (`src/components/CLIEmulator.tsx:104-115`, `209-214`): random and cosmetic; the `Glitch` event changes no session state.
- React's deferred state updates: `removeRandomFile` filters the rendered `fileSystem` but updates the pending `prev`, and `executeCommand` reads the rendered `cwd`; each command and event is modelled as one atomic transition on a single state.
- A replayed ghost command (`src/components/CLIEmulator.tsx:175-177`) calls the `executeCommand` captured when the interval effect was last installed, and the effect is re-installed only when the filesystem changes (`src/components/CLIEmulator.tsx:242`). That closure reads the working directory of that older render: after a user `cd` with no filesystem change, a ghost `pwd` prints the earlier directory and a ghost `cd ..` climbs from it. `Haunt` runs a replayed command in the current directory, so this staleness is not modelled.
- The input box text (`setInput('')`) is not part of the session state.
- JavaScript strings are UTF-16; the model's strings are sequences of Unicode code points. No path or command of the program contains a character outside the Basic Multilingual Plane, so indices and cuts agree.
- Terminal.Session.InsertGhostFile: planting is modelled only for the five ghost files the source defines, whose directories always exist; planting under a path whose directory part is a file would graft children onto a file, which no call in the source does.
- Terminal.Session.RemoveFile: requires its path to be a file, which every deletion candidate is.

=== FILE: filesystem.dfy ===
/** The emulator's in-memory filesystem: a JavaScript object from absolute
    path strings to nodes, the seed it starts from, its two updates (planting
    a file under an existing directory, deleting a file) and the filter that
    picks deletion candidates, with the structural invariant both updates
    keep: every listed child exists, and every entry but `/` is listed once
    in its parent directory. */
module FileSystem {
  import opened Paths

  datatype Kind = Dir | File

  /** A filesystem item. As in the source's record type, `children` belongs
      to directories and `content` to files. A field the source leaves
      undefined is empty here; every use in the source treats the two alike
      (`children?.includes(x)` is false, `children || []` and
      `children?.join('  ') || ''` give the empty value). */
  datatype Node = Node(kind: Kind, children: seq<string>, content: string)

  function DirNode(children: seq<string>): Node
  {
    Node(Dir, children, "")
  }

  function FileNode(content: string): Node
  {
    Node(File, [], content)
  }

  predicate IsDir(nodes: map<string, Node>, p: string)
  {
    p in nodes && nodes[p].kind == Dir
  }

  predicate IsFile(nodes: map<string, Node>, p: string)
  {
    p in nodes && nodes[p].kind == File
  }

  ghost predicate Distinct<T>(s: seq<T>)
  {
    forall i, j :: 0 <= i < j < |s| ==> s[i] != s[j]
  }

  /** `s.filter(y => y !== x)`. */
  function Without(s: seq<string>, x: string): (r: seq<string>)
    ensures forall y :: y in r <==> y in s && y != x
    ensures Distinct(s) ==> Distinct(r)
  {
    if |s| == 0 then []
    else if s[0] == x then Without(s[1..], x)
    else
      assert Distinct(s) ==> s[0] !in s[1..];
      [s[0]] + Without(s[1..], x)
  }

  lemma {:induction false} WithoutAbsent(s: seq<string>, x: string)
    requires x !in s
    ensures Without(s, x) == s
    decreases |s|
  {
    if |s| > 0 {
      WithoutAbsent(s[1..], x);
      assert [s[0]] + s[1..] == s;
    }
  }

  /** Filtering keeps the order of the survivors: taking the one
      occurrence of `x` out of a list closes the gap it leaves. */
  lemma {:induction false} WithoutMiddle(a: seq<string>, x: string, b: seq<string>)
    requires x !in a && x !in b
    ensures Without(a + [x] + b, x) == a + b
    decreases |a|
  {
    if |a| == 0 {
      assert a + [x] + b == [x] + b;
      WithoutAbsent(b, x);
    } else {
      assert (a + [x] + b)[1..] == a[1..] + [x] + b;
      WithoutMiddle(a[1..], x, b);
      assert [a[0]] + (a[1..] + b) == a + b;
    }
  }

  /** Filtering out an element that was just appended to a list without it
      gives the list back. */
  lemma {:induction false} WithoutAppended(s: seq<string>, x: string)
    requires x !in s
    ensures Without(s + [x], x) == s
    decreases |s|
  {
    if |s| == 0 {
      assert Without([x], x) == Without([], x);
    } else {
      assert (s + [x])[1..] == s[1..] + [x];
      WithoutAppended(s[1..], x);
      assert [s[0]] + s[1..] == s;
    }
  }

  /** The filesystem object: its entries and, because `Object.keys` lists
      string keys in insertion order, that order. */
  datatype Store = Store(nodes: map<string, Node>, keys: seq<string>)
  {
    /** The key list names each entry exactly once. */
    ghost predicate Valid()
    {
      (forall p :: p in keys <==> p in nodes) && Distinct(keys)
    }

    /** `obj[p] = n`: an existing key keeps its place, a new one goes last. */
    function Set(p: string, n: Node): (s: Store)
      ensures s.nodes == nodes[p := n]
      ensures Valid() ==> s.Valid()
    {
      Store(nodes[p := n], if p in nodes then keys else keys + [p])
    }

    /** `delete obj[p]`. */
    function Delete(p: string): (s: Store)
      ensures s.nodes == nodes - {p}
      ensures Valid() ==> s.Valid()
    {
      Store(nodes - {p}, Without(keys, p))
    }
  }

  const HomeDir: string := "/home/user"

  /** The filesystem every session starts with, entries in source order. */
  const Seed: Store := Store(
    map[
      "/" := DirNode(["home", "etc", "var"]),
      "/home" := DirNode(["user"]),
      "/home/user" := DirNode(["documents", "projects", "readme.txt"]),
      "/home/user/documents" := DirNode(["notes.txt", "todo.txt"]),
      "/home/user/projects" := DirNode(["app.js", "package.json"]),
      "/home/user/readme.txt" := FileNode("Welcome to the CLI emulator!\nTry commands like: ls, cd, cat, pwd, clear, help"),
      "/home/user/documents/notes.txt" := FileNode("Meeting notes:\n- Review Q4 goals\n- Plan team outing\n- Update documentation"),
      "/home/user/documents/todo.txt" := FileNode("TODO:\n[ ] Fix bug in login\n[x] Write tests\n[ ] Deploy to staging"),
      "/home/user/projects/app.js" := FileNode("console.log(\"Hello, World!\");\n\nfunction main() {\n  return \"CLI Emulator\";\n}"),
      "/home/user/projects/package.json" := FileNode("{\n  \"name\": \"cli-emulator\",\n  \"version\": \"1.0.0\"\n}"),
      "/etc" := DirNode(["config.txt"]),
      "/etc/config.txt" := FileNode("System configuration file"),
      "/var" := DirNode(["log"]),
      "/var/log" := DirNode(["system.log"]),
      "/var/log/system.log" := FileNode("[2025-10-13 10:00:00] System started\n[2025-10-13 10:01:23] User logged in")
    ],
    [ "/", "/home", "/home/user", "/home/user/documents", "/home/user/projects",
      "/home/user/readme.txt", "/home/user/documents/notes.txt", "/home/user/documents/todo.txt",
      "/home/user/projects/app.js", "/home/user/projects/package.json",
      "/etc", "/etc/config.txt", "/var", "/var/log", "/var/log/system.log" ])

  // ---------------------------------------------------------------------
  // The structural invariant

  /** `p` is named in the children of the directory it lives in. */
  ghost predicate Listed(nodes: map<string, Node>, p: string)
  {
    var d := Parent(p);
    IsDir(nodes, d) && NameOf(p) in nodes[d].children && ChildPath(d, NameOf(p)) == p
  }

  /** Every name a directory lists is a single segment naming an entry. */
  ghost predicate ChildrenExist(nodes: map<string, Node>)
  {
    forall d, n | IsDir(nodes, d) && n in nodes[d].children :: '/' !in n && ChildPath(d, n) in nodes
  }

  /** No directory lists a name twice. */
  ghost predicate ChildrenUnique(nodes: map<string, Node>)
  {
    forall d | IsDir(nodes, d) :: Distinct(nodes[d].children)
  }

  /** No entry but the root is an orphan. */
  ghost predicate AllListed(nodes: map<string, Node>)
  {
    forall p {:trigger Listed(nodes, p)} | p in nodes && p != "/" :: Listed(nodes, p)
  }

  ghost predicate TreeShaped(nodes: map<string, Node>)
  {
    IsDir(nodes, "/") && ChildrenExist(nodes) && ChildrenUnique(nodes) && AllListed(nodes)
  }

  ghost predicate WellFormed(s: Store)
  {
    s.Valid() && TreeShaped(s.nodes)
  }

  /** The empty path is never an entry of a well-formed store. */
  lemma EmptyPathAbsent(nodes: map<string, Node>)
    requires AllListed(nodes)
    ensures "" !in nodes
  {
    assert DirOf("") == "" && NameOf("") == "";
    assert ChildPath(Parent(""), NameOf("")) != "";
    assert !Listed(nodes, "");
  }

  // ---------------------------------------------------------------------
  // Planting a file

  /** The update of `addGhostFile`: when the directory part of `path` is an
      entry that does not already list the name, append the name to its
      children and store a file node at `path`; otherwise nothing changes. */
  function InsertEntry(s: Store, path: string, content: string): Store
  {
    var d := DirOf(path);
    var name := NameOf(path);
    if d in s.nodes && name !in s.nodes[d].children then
      s.Set(d, s.nodes[d].(children := s.nodes[d].children + [name])).Set(path, FileNode(content))
    else s
  }

  /** What a lookup sees after planting: a skipped insertion changes nothing;
      otherwise the file is stored at `path`, its name is appended to the
      parent's children, the parent keeps its kind and content, and no other
      entry changes. */
  lemma InsertEntryEffect(s: Store, path: string, content: string)
    ensures var d, name, r := DirOf(path), NameOf(path), InsertEntry(s, path, content);
      && (d !in s.nodes || name in s.nodes[d].children ==> r == s)
      && (d in s.nodes && name !in s.nodes[d].children && d != path ==>
            && r.nodes.Keys == s.nodes.Keys + {path}
            && r.nodes[path] == FileNode(content)
            && r.nodes[d].children == s.nodes[d].children + [name]
            && r.nodes[d] == s.nodes[d].(children := s.nodes[d].children + [name])
            && (forall k | k in s.nodes && k != d && k != path :: r.nodes[k] == s.nodes[k]))
  {
  }

  /** The facts about a planted path that the invariant proofs use. */
  ghost predicate FreshChild(nodes: map<string, Node>, d: string, name: string, path: string)
  {
    && IsDir(nodes, d) && name !in nodes[d].children && '/' !in name
    && path !in nodes && Parent(path) == d && NameOf(path) == name && ChildPath(d, name) == path
  }

  lemma InsertChildrenExist(nodes: map<string, Node>, d: string, name: string, path: string, content: string)
    requires ChildrenExist(nodes) && FreshChild(nodes, d, name, path)
    ensures ChildrenExist(nodes[d := nodes[d].(children := nodes[d].children + [name])][path := FileNode(content)])
  {
  }

  lemma InsertChildrenUnique(nodes: map<string, Node>, d: string, name: string, path: string, content: string)
    requires ChildrenUnique(nodes) && FreshChild(nodes, d, name, path)
    ensures ChildrenUnique(nodes[d := nodes[d].(children := nodes[d].children + [name])][path := FileNode(content)])
  {
    assert Distinct(nodes[d].children);
  }

  lemma InsertAllListed(nodes: map<string, Node>, d: string, name: string, path: string, content: string)
    requires AllListed(nodes) && FreshChild(nodes, d, name, path)
    ensures AllListed(nodes[d := nodes[d].(children := nodes[d].children + [name])][path := FileNode(content)])
  {
    var r := nodes[d := nodes[d].(children := nodes[d].children + [name])][path := FileNode(content)];
    forall p | p in r && p != "/"
      ensures Listed(r, p)
    {
      if p != path {
        assert Listed(nodes, p);
      }
    }
  }

  /** Planting under a directory keeps the store well formed, keeps every
      existing entry with its kind, and leaves the name listed (exactly once,
      by the invariant) in the parent. The requirement on the directory part
      excludes only `//name`, whose name would be listed under `/` as
      `/name`. */
  lemma InsertKeepsWellFormed(s: Store, path: string, content: string)
    requires WellFormed(s)
    requires DirOf(path) != "/"
    requires DirOf(path) in s.nodes ==> IsDir(s.nodes, DirOf(path))
    ensures var r := InsertEntry(s, path, content);
      && WellFormed(r)
      && (forall k | k in s.nodes :: k in r.nodes && r.nodes[k].kind == s.nodes[k].kind)
      && (DirOf(path) in s.nodes ==> path in r.nodes && NameOf(path) in r.nodes[DirOf(path)].children)
      && (r != s ==> path !in s.nodes && r.nodes[path] == FileNode(content))
  {
    var d, name := DirOf(path), NameOf(path);
    EmptyPathAbsent(s.nodes);
    if d in s.nodes {
      assert LastIndexOf(path, '/') >= 0;
      ParentChildPath(path);
      assert ChildPath(d, name) == path;
      if name !in s.nodes[d].children {
        assert DirOf("/") == "";
        assert !Listed(s.nodes, path);
        assert FreshChild(s.nodes, d, name, path);
        InsertChildrenExist(s.nodes, d, name, path, content);
        InsertChildrenUnique(s.nodes, d, name, path, content);
        InsertAllListed(s.nodes, d, name, path, content);
      }
    }
  }

  // ---------------------------------------------------------------------
  // Deleting a file

  /** The update of `removeRandomFile`: when the directory part of `path` is
      an entry, filter the name out of its children and delete `path`;
      otherwise nothing changes. A file directly under `/` has the directory
      part `""`, which is never an entry, so it is never deleted. */
  function RemoveEntry(s: Store, path: string): Store
  {
    var d := DirOf(path);
    var name := NameOf(path);
    if d in s.nodes then
      s.Set(d, s.nodes[d].(children := Without(s.nodes[d].children, name))).Delete(path)
    else s
  }

  /** What a lookup sees after deleting: nothing changes when the parent is
      absent; otherwise `path` is gone, its name is no longer among the
      parent's children, the other children keep their order (which `ls`
      prints), the parent keeps its kind and content, and every other entry
      is as before. */
  lemma RemoveEntryEffect(s: Store, path: string)
    ensures var d, name, r := DirOf(path), NameOf(path), RemoveEntry(s, path);
      && (d !in s.nodes ==> r == s)
      && (d in s.nodes && d != path ==>
            && r.nodes.Keys == s.nodes.Keys - {path}
            && name !in r.nodes[d].children
            && (forall n :: n in r.nodes[d].children <==> n in s.nodes[d].children && n != name)
            && (forall a, b | s.nodes[d].children == a + [name] + b && name !in a + b ::
                  r.nodes[d].children == a + b)
            && r.nodes[d] == s.nodes[d].(children := Without(s.nodes[d].children, name))
            && (forall k | k in s.nodes && k != d && k != path :: r.nodes[k] == s.nodes[k]))
  {
    var d, name, r := DirOf(path), NameOf(path), RemoveEntry(s, path);
    if d in s.nodes && d != path {
      forall a, b | s.nodes[d].children == a + [name] + b && name !in a + b
        ensures r.nodes[d].children == a + b
      {
        WithoutMiddle(a, name, b);
      }
    }
  }

  /** The facts about a deleted file that the invariant proofs use. */
  ghost predicate ListedFile(nodes: map<string, Node>, d: string, name: string, path: string)
  {
    && IsDir(nodes, d) && d != "" && IsFile(nodes, path)
    && DirOf(path) == d && Parent(path) == d && NameOf(path) == name && ChildPath(d, name) == path
  }

  lemma RemoveChildrenExist(nodes: map<string, Node>, d: string, name: string, path: string)
    requires ChildrenExist(nodes) && ListedFile(nodes, d, name, path)
    ensures ChildrenExist(nodes[d := nodes[d].(children := Without(nodes[d].children, name))] - {path})
  {
    var r := nodes[d := nodes[d].(children := Without(nodes[d].children, name))] - {path};
    forall e, n | IsDir(r, e) && n in r[e].children
      ensures '/' !in n && ChildPath(e, n) in r
    {
      assert IsDir(nodes, e) && n in nodes[e].children;
      ChildPathParts(e, n);
    }
  }

  lemma RemoveChildrenUnique(nodes: map<string, Node>, d: string, name: string, path: string)
    requires ChildrenUnique(nodes) && ListedFile(nodes, d, name, path)
    ensures ChildrenUnique(nodes[d := nodes[d].(children := Without(nodes[d].children, name))] - {path})
  {
    assert Distinct(nodes[d].children);
  }

  lemma RemoveAllListed(nodes: map<string, Node>, d: string, name: string, path: string)
    requires AllListed(nodes) && ListedFile(nodes, d, name, path)
    ensures AllListed(nodes[d := nodes[d].(children := Without(nodes[d].children, name))] - {path})
  {
    var r := nodes[d := nodes[d].(children := Without(nodes[d].children, name))] - {path};
    forall p | p in r && p != "/"
      ensures Listed(r, p)
    {
      assert Listed(nodes, p);
    }
  }

  /** Deleting a file keeps the store well formed and keeps every other
      entry with its kind; in particular no directory is ever deleted. */
  lemma RemoveKeepsWellFormed(s: Store, path: string)
    requires WellFormed(s)
    requires IsFile(s.nodes, path)
    ensures var r := RemoveEntry(s, path);
      && WellFormed(r)
      && (forall k | k in s.nodes && k != path :: k in r.nodes && r.nodes[k].kind == s.nodes[k].kind)
      && (DirOf(path) in s.nodes ==> path !in r.nodes)
  {
    var d, name := DirOf(path), NameOf(path);
    EmptyPathAbsent(s.nodes);
    if d in s.nodes {
      assert Listed(s.nodes, path);
      assert ListedFile(s.nodes, d, name, path);
      var r := RemoveEntry(s, path);
      assert r.nodes == s.nodes[d := s.nodes[d].(children := Without(s.nodes[d].children, name))] - {path};
      RemoveChildrenExist(s.nodes, d, name, path);
      RemoveChildrenUnique(s.nodes, d, name, path);
      RemoveAllListed(s.nodes, d, name, path);
    }
  }

  /** A file directly under `/` has the directory part `""`, which is never
      an entry, so deleting it changes nothing. */
  lemma RootFilesNeverDeleted(s: Store, name: string)
    requires WellFormed(s) && '/' !in name
    ensures RemoveEntry(s, "/" + name) == s
  {
    ChildPathParts("/", name);
    EmptyPathAbsent(s.nodes);
  }

  /** Overwriting an entry, adding a fresh one, restoring the first and
      dropping the second gives the map back. */
  lemma RestoreMap(m: map<string, Node>, d: string, v: Node, p: string, w: Node)
    requires d in m && p !in m
    ensures m[d := v][p := w][d := m[d]] - {p} == m
  {
  }

  /** Planting a file and then deleting it gives back the original store,
      key order included: the two updates are inverse. */
  lemma RemoveUndoesInsert(s: Store, path: string, content: string)
    requires WellFormed(s)
    requires IsDir(s.nodes, DirOf(path)) && NameOf(path) !in s.nodes[DirOf(path)].children
    ensures RemoveEntry(InsertEntry(s, path, content), path) == s
  {
    var d, name := DirOf(path), NameOf(path);
    var c := s.nodes[d].children;
    EmptyPathAbsent(s.nodes);
    assert d != path by {
      assert LastIndexOf(path, '/') >= 0;
    }
    assert path !in s.nodes by {
      assert Parent(path) == d;
      assert !Listed(s.nodes, path);
    }
    var v := s.nodes[d].(children := c + [name]);
    var mid := InsertEntry(s, path, content);
    assert mid == Store(s.nodes[d := v][path := FileNode(content)], s.keys + [path]);
    WithoutAppended(c, name);
    WithoutAppended(s.keys, path);
    assert v.(children := Without(c + [name], name)) == s.nodes[d];
    RestoreMap(s.nodes, d, v, path, FileNode(content));
  }

  // ---------------------------------------------------------------------
  // Choosing what to delete

  /** `s.includes(sub)`. */
  predicate Contains(s: string, sub: string)
    decreases |s|
  {
    sub <= s || (|s| > 0 && Contains(s[1..], sub))
  }

  /** The filter of `removeRandomFile`: files whose path mentions neither
      `WHO_AM_I` nor `HELP`. */
  predicate Removable(nodes: map<string, Node>, p: string)
  {
    IsFile(nodes, p) && !Contains(p, "WHO_AM_I") && !Contains(p, "HELP")
  }

  /** `keys.filter(...)` with that predicate: exactly the removable keys,
      in key order. */
  function Candidates(keys: seq<string>, nodes: map<string, Node>): (r: seq<string>)
    ensures forall p :: p in r <==> p in keys && Removable(nodes, p)
    ensures Distinct(keys) ==> Distinct(r)
  {
    if |keys| == 0 then []
    else
      assert Distinct(keys) ==> keys[0] !in keys[1..];
      (if Removable(nodes, keys[0]) then [keys[0]] else []) + Candidates(keys[1..], nodes)
  }

  /** The deletion candidates of a store: each removable file exactly once. */
  function RemovalCandidates(s: Store): (r: seq<string>)
    ensures s.Valid() ==> forall p :: p in r <==> Removable(s.nodes, p)
    ensures s.Valid() ==> Distinct(r)
  {
    Candidates(s.keys, s.nodes)
  }

  // ---------------------------------------------------------------------
  // The seed

  // The seed's facts are proved one entry at a time: each lemma below
  // mentions few string literals, which keeps every proof small.

  lemma SeedValid()
    ensures Seed.Valid()
  {
  }

  /** `p` is the entry `n` of seed directory `d`, listed there. */
  ghost predicate SeedLink(d: string, n: string, p: string)
  {
    p == ChildPath(d, n) && Parent(p) == d && NameOf(p) == n && p in Seed.nodes && Listed(Seed.nodes, p)
  }

  lemma ListedAt(nodes: map<string, Node>, d: string, n: string, p: string)
    requires IsDir(nodes, d) && d != "" && n in nodes[d].children && '/' !in n
    requires p == ChildPath(d, n)
    ensures Listed(nodes, p) && Parent(p) == d && NameOf(p) == n
  {
    ChildPathParts(d, n);
  }

  lemma SeedDirRoot()
    ensures Seed.nodes["/"] == DirNode(["home", "etc", "var"])
  {
  }

  lemma SeedDirHome()
    ensures Seed.nodes["/home"] == DirNode(["user"])
  {
  }

  lemma SeedDirUser()
    ensures Seed.nodes["/home/user"] == DirNode(["documents", "projects", "readme.txt"])
  {
  }

  lemma SeedDirDocuments()
    ensures Seed.nodes["/home/user/documents"] == DirNode(["notes.txt", "todo.txt"])
  {
  }

  lemma SeedDirProjects()
    ensures Seed.nodes["/home/user/projects"] == DirNode(["app.js", "package.json"])
  {
  }

  lemma SeedDirEtc()
    ensures Seed.nodes["/etc"] == DirNode(["config.txt"])
  {
  }

  lemma SeedDirVar()
    ensures Seed.nodes["/var"] == DirNode(["log"])
  {
  }

  lemma SeedDirLog()
    ensures Seed.nodes["/var/log"] == DirNode(["system.log"])
  {
  }

  lemma SeedLinkHome()
    ensures SeedLink("/", "home", "/home")
  {
    SeedDirRoot();
    ListedAt(Seed.nodes, "/", "home", "/home");
  }

  lemma SeedLinkEtc()
    ensures SeedLink("/", "etc", "/etc")
  {
    SeedDirRoot();
    ListedAt(Seed.nodes, "/", "etc", "/etc");
  }

  lemma SeedLinkVar()
    ensures SeedLink("/", "var", "/var")
  {
    SeedDirRoot();
    ListedAt(Seed.nodes, "/", "var", "/var");
  }

  lemma SeedLinkUser()
    ensures SeedLink("/home", "user", "/home/user")
  {
    SeedDirHome();
    ListedAt(Seed.nodes, "/home", "user", "/home/user");
  }

  lemma SeedLinkDocuments()
    ensures SeedLink("/home/user", "documents", "/home/user/documents")
  {
    SeedDirUser();
    ListedAt(Seed.nodes, "/home/user", "documents", "/home/user/documents");
  }

  lemma SeedLinkProjects()
    ensures SeedLink("/home/user", "projects", "/home/user/projects")
  {
    SeedDirUser();
    ListedAt(Seed.nodes, "/home/user", "projects", "/home/user/projects");
  }

  lemma SeedLinkReadmeTxt()
    ensures SeedLink("/home/user", "readme.txt", "/home/user/readme.txt")
  {
    SeedDirUser();
    ListedAt(Seed.nodes, "/home/user", "readme.txt", "/home/user/readme.txt");
  }

  lemma SeedLinkNotesTxt()
    ensures SeedLink("/home/user/documents", "notes.txt", "/home/user/documents/notes.txt")
  {
    SeedDirDocuments();
    ListedAt(Seed.nodes, "/home/user/documents", "notes.txt", "/home/user/documents/notes.txt");
  }

  lemma SeedLinkTodoTxt()
    ensures SeedLink("/home/user/documents", "todo.txt", "/home/user/documents/todo.txt")
  {
    SeedDirDocuments();
    ListedAt(Seed.nodes, "/home/user/documents", "todo.txt", "/home/user/documents/todo.txt");
  }

  lemma SeedLinkAppJs()
    ensures SeedLink("/home/user/projects", "app.js", "/home/user/projects/app.js")
  {
    SeedDirProjects();
    ListedAt(Seed.nodes, "/home/user/projects", "app.js", "/home/user/projects/app.js");
  }

  lemma SeedLinkPackageJson()
    ensures SeedLink("/home/user/projects", "package.json", "/home/user/projects/package.json")
  {
    SeedDirProjects();
    ListedAt(Seed.nodes, "/home/user/projects", "package.json", "/home/user/projects/package.json");
  }

  lemma SeedLinkConfigTxt()
    ensures SeedLink("/etc", "config.txt", "/etc/config.txt")
  {
    SeedDirEtc();
    ListedAt(Seed.nodes, "/etc", "config.txt", "/etc/config.txt");
  }

  lemma SeedLinkLog()
    ensures SeedLink("/var", "log", "/var/log")
  {
    SeedDirVar();
    ListedAt(Seed.nodes, "/var", "log", "/var/log");
  }

  lemma SeedLinkSystemLog()
    ensures SeedLink("/var/log", "system.log", "/var/log/system.log")
  {
    SeedDirLog();
    ListedAt(Seed.nodes, "/var/log", "system.log", "/var/log/system.log");
  }

  /** Every other entry of the seed is a file. */
  lemma SeedFiles()
    ensures forall p | p in Seed.nodes && p !in {"/", "/home", "/home/user", "/home/user/documents", "/home/user/projects", "/etc", "/var", "/var/log"} :: Seed.nodes[p].kind == File
  {
  }

  lemma SeedAllListed()
    ensures AllListed(Seed.nodes)
  {
    forall p | p in Seed.nodes && p != "/"
      ensures Listed(Seed.nodes, p)
    {
      if p == "/home" {
        SeedLinkHome();
      } else if p == "/etc" {
        SeedLinkEtc();
      } else if p == "/var" {
        SeedLinkVar();
      } else if p == "/home/user" {
        SeedLinkUser();
      } else if p == "/home/user/documents" {
        SeedLinkDocuments();
      } else if p == "/home/user/projects" {
        SeedLinkProjects();
      } else if p == "/home/user/readme.txt" {
        SeedLinkReadmeTxt();
      } else if p == "/home/user/documents/notes.txt" {
        SeedLinkNotesTxt();
      } else if p == "/home/user/documents/todo.txt" {
        SeedLinkTodoTxt();
      } else if p == "/home/user/projects/app.js" {
        SeedLinkAppJs();
      } else if p == "/home/user/projects/package.json" {
        SeedLinkPackageJson();
      } else if p == "/etc/config.txt" {
        SeedLinkConfigTxt();
      } else if p == "/var/log" {
        SeedLinkLog();
      } else if p == "/var/log/system.log" {
        SeedLinkSystemLog();
      } else {
        assert false;
      }
    }
  }

  lemma SeedChildrenExist()
    ensures ChildrenExist(Seed.nodes)
  {
    forall d, n | IsDir(Seed.nodes, d) && n in Seed.nodes[d].children
      ensures '/' !in n && ChildPath(d, n) in Seed.nodes
    {
      if d == "/" {
        SeedDirRoot();
        if n == "home" {
          SeedLinkHome();
        } else if n == "etc" {
          SeedLinkEtc();
        } else if n == "var" {
          SeedLinkVar();
        } else {
          assert false;
        }
      } else if d == "/home" {
        SeedDirHome();
        if n == "user" {
          SeedLinkUser();
        } else {
          assert false;
        }
      } else if d == "/home/user" {
        SeedDirUser();
        if n == "documents" {
          SeedLinkDocuments();
        } else if n == "projects" {
          SeedLinkProjects();
        } else if n == "readme.txt" {
          SeedLinkReadmeTxt();
        } else {
          assert false;
        }
      } else if d == "/home/user/documents" {
        SeedDirDocuments();
        if n == "notes.txt" {
          SeedLinkNotesTxt();
        } else if n == "todo.txt" {
          SeedLinkTodoTxt();
        } else {
          assert false;
        }
      } else if d == "/home/user/projects" {
        SeedDirProjects();
        if n == "app.js" {
          SeedLinkAppJs();
        } else if n == "package.json" {
          SeedLinkPackageJson();
        } else {
          assert false;
        }
      } else if d == "/etc" {
        SeedDirEtc();
        if n == "config.txt" {
          SeedLinkConfigTxt();
        } else {
          assert false;
        }
      } else if d == "/var" {
        SeedDirVar();
        if n == "log" {
          SeedLinkLog();
        } else {
          assert false;
        }
      } else if d == "/var/log" {
        SeedDirLog();
        if n == "system.log" {
          SeedLinkSystemLog();
        } else {
          assert false;
        }
      } else {
        SeedFiles();
        assert false;
      }
    }
  }

  lemma SeedChildrenUnique()
    ensures ChildrenUnique(Seed.nodes)
  {
    SeedDirRoot();
    SeedDirHome();
    SeedDirUser();
    SeedDirDocuments();
    SeedDirProjects();
    SeedDirEtc();
    SeedDirVar();
    SeedDirLog();
    SeedFiles();
  }

  /** The seed filesystem satisfies the invariant. */
  lemma SeedWellFormed()
    ensures WellFormed(Seed)
  {
    SeedValid();
    SeedDirRoot();
    SeedAllListed();
    SeedChildrenExist();
    SeedChildrenUnique();
  }

  /** The directories of the seed. Neither update ever removes a directory
      or turns one into a file, so all of them exist for good. */
  const SeedDirs: set<string> :=
    {"/", "/home", "/home/user", "/home/user/documents", "/home/user/projects", "/etc", "/var", "/var/log"}

  ghost predicate HasSeedDirs(nodes: map<string, Node>)
  {
    forall d | d in SeedDirs :: IsDir(nodes, d)
  }

  lemma SeedHasSeedDirs()
    ensures HasSeedDirs(Seed.nodes)
  {
    forall d | d in SeedDirs
      ensures IsDir(Seed.nodes, d)
    {
      if d == "/" {
        SeedDirRoot();
      } else if d == "/home" {
        SeedDirHome();
      } else if d == "/home/user" {
        SeedDirUser();
      } else if d == "/home/user/documents" {
        SeedDirDocuments();
      } else if d == "/home/user/projects" {
        SeedDirProjects();
      } else if d == "/etc" {
        SeedDirEtc();
      } else if d == "/var" {
        SeedDirVar();
      } else {
        SeedDirLog();
      }
    }
  }

  /** A path that has `sub` at position `i` contains it. */
  lemma {:induction false} ContainsAt(s: string, sub: string, i: nat)
    requires i + |sub| <= |s| && s[i..i + |sub|] == sub
    ensures Contains(s, sub)
    decreases i
  {
    if i == 0 {
      assert sub <= s;
    } else {
      assert s[1..][i - 1..i - 1 + |sub|] == s[i..i + |sub|];
      ContainsAt(s[1..], sub, i - 1);
    }
  }

  /** Deleting a file keeps the tree well formed and removes no directory:
      the seed's directories and any working directory survive. */
  lemma RemoveKeepsDirectories(s: Store, path: string, cwd: string)
    requires WellFormed(s) && HasSeedDirs(s.nodes) && IsDir(s.nodes, cwd)
    requires IsFile(s.nodes, path)
    ensures var r := RemoveEntry(s, path);
      WellFormed(r) && HasSeedDirs(r.nodes) && IsDir(r.nodes, cwd)
  {
    RemoveKeepsWellFormed(s, path);
  }

  /** Planting a file under a seed directory keeps the tree well formed and
      every directory in place. */
  lemma InsertKeepsDirectories(s: Store, path: string, content: string, cwd: string)
    requires WellFormed(s) && HasSeedDirs(s.nodes) && IsDir(s.nodes, cwd)
    requires DirOf(path) in SeedDirs && DirOf(path) != "/"
    ensures var r := InsertEntry(s, path, content);
      WellFormed(r) && HasSeedDirs(r.nodes) && IsDir(r.nodes, cwd)
  {
    InsertKeepsWellFormed(s, path, content);
  }
}

=== FILE: paths.dfy ===
/** Path strings of the emulated shell: JavaScript-style `split` and `join`,
    the directory/name split the filesystem updates use (`lastIndexOf('/')`),
    and the resolver that `ls`, `cd` and `cat` apply to their argument. */
module Paths {

  /** `s.split(sep)` in JavaScript: the pieces between the occurrences of
      `sep`, empty pieces included; never an empty list. */
  function Split(s: string, sep: char): (r: seq<string>)
    ensures |r| >= 1
    ensures forall piece <- r :: sep !in piece
    decreases |s|
  {
    if |s| == 0 then [""]
    else
      var rest := Split(s[1..], sep);
      if s[0] == sep then [""] + rest
      else [[s[0]] + rest[0]] + rest[1..]
  }

  /** `parts.join(sep)` in JavaScript. */
  function Join(parts: seq<string>, sep: string): string
  {
    if |parts| == 0 then ""
    else if |parts| == 1 then parts[0]
    else parts[0] + sep + Join(parts[1..], sep)
  }

  /** `parts.filter(p => p)`: the non-empty strings, in order. */
  function NonEmpty(parts: seq<string>): (r: seq<string>)
    ensures forall p <- r :: p != "" && p in parts
  {
    if |parts| == 0 then []
    else (if parts[0] == "" then [] else [parts[0]]) + NonEmpty(parts[1..])
  }

  /** The non-empty `/`-separated segments of a path. */
  function Segments(p: string): (r: seq<string>)
    ensures forall x <- r :: x != "" && '/' !in x
  {
    NonEmpty(Split(p, '/'))
  }

  /** `Array.prototype.pop` applied for its effect: the empty list stays empty. */
  function DropLast(parts: seq<string>): (r: seq<string>)
    ensures forall p <- r :: p in parts
    ensures |r| == if |parts| == 0 then 0 else |parts| - 1
    ensures forall i | 0 <= i < |r| :: r[i] == parts[i]
  {
    if |parts| == 0 then parts else parts[..|parts| - 1]
  }

  predicate IsAbsolute(p: string)
  {
    |p| > 0 && p[0] == '/'
  }

  /** A path that is `/` followed by its segments joined with single slashes
      (no empty, trailing or doubled separators). */
  ghost predicate Canonical(p: string)
  {
    p == "/" + Join(Segments(p), "/")
  }

  /** `s.lastIndexOf(c)`: the last position holding `c`, or -1. */
  function LastIndexOf(s: string, c: char): (i: int)
    ensures -1 <= i < |s|
    ensures 0 <= i ==> s[i] == c
    ensures forall j :: i < j < |s| ==> s[j] != c
  {
    if |s| == 0 then -1
    else if s[|s| - 1] == c then |s| - 1
    else LastIndexOf(s[..|s| - 1], c)
  }

  /** `p.substring(0, p.lastIndexOf('/'))`; JavaScript clamps the end -1 to 0,
      so a path without a slash has the empty directory part. */
  function DirOf(p: string): string
  {
    var i := LastIndexOf(p, '/');
    if i < 0 then "" else p[..i]
  }

  /** `p.substring(p.lastIndexOf('/') + 1)`. */
  function NameOf(p: string): (n: string)
    ensures '/' !in n
  {
    p[LastIndexOf(p, '/') + 1..]
  }

  /** The directory a path is listed in: its directory part, except that a
      path whose only slash is the leading one lives in `/`. */
  function Parent(p: string): string
  {
    if DirOf(p) == "" then "/" else DirOf(p)
  }

  /** The path of entry `name` inside directory `dir`, as the resolver forms
      it for a relative argument. */
  function ChildPath(dir: string, name: string): string
  {
    if dir == "/" then "/" + name else dir + "/" + name
  }

  /** A relative argument that is neither `.` nor `..`. */
  predicate IsRelativeName(arg: string)
  {
    !IsAbsolute(arg) && arg != "." && arg != ".."
  }

  /** `resolvePath` of the emulator. In the source the `..` case ends in
      `'/' + parts.join('/') || '/'`, whose fallback never applies because
      the left operand is never empty; interior `.` and `..` segments of an
      argument are not normalised. */
  function Resolve(cwd: string, arg: string): (r: string)
    ensures IsAbsolute(arg) ==> r == arg
    ensures arg == "." ==> r == cwd
    ensures arg == ".." ==> Canonical(r) && Segments(r) == DropLast(Segments(cwd))
    ensures IsRelativeName(arg) ==> Segments(r) == Segments(cwd) + Segments(arg)
    ensures IsRelativeName(arg) && cwd == "/" ==> r == "/" + arg
    ensures IsRelativeName(arg) && cwd != "/" ==> r == cwd + "/" + arg
    ensures IsAbsolute(cwd) ==> IsAbsolute(r)
  {
    if IsAbsolute(arg) then arg
    else if arg == ".." then
      var up := DropLast(Segments(cwd));
      SegmentsOfCanonical(up);
      "/" + Join(up, "/")
    else if arg == "." then cwd
    else
      SegmentsOfChildPath(cwd, arg);
      ChildPath(cwd, arg)
  }

  /** `cd ..` applied `k` times. */
  function Ascend(cwd: string, k: nat): string
    decreases k
  {
    if k == 0 then cwd else Ascend(Resolve(cwd, ".."), k - 1)
  }

  // ---------------------------------------------------------------------
  // Lemmas about splitting and joining

  lemma {:induction false} SplitNoSeparator(s: string, sep: char)
    requires sep !in s
    ensures Split(s, sep) == [s]
    decreases |s|
  {
    if |s| > 0 {
      SplitNoSeparator(s[1..], sep);
      assert [s[0]] + s[1..] == s;
    }
  }

  /** Splitting distributes over a separator. */
  lemma {:induction false} SplitAppend(a: string, b: string, sep: char)
    ensures Split(a + [sep] + b, sep) == Split(a, sep) + Split(b, sep)
    decreases |a|
  {
    var s := a + [sep] + b;
    if |a| == 0 {
      assert s[1..] == b;
    } else {
      assert s[1..] == a[1..] + [sep] + b;
      SplitAppend(a[1..], b, sep);
    }
  }

  /** Splitting undoes joining, for pieces free of the separator. */
  lemma {:induction false} SplitJoin(parts: seq<string>, sep: char)
    requires |parts| >= 1
    requires forall p <- parts :: sep !in p
    ensures Split(Join(parts, [sep]), sep) == parts
    decreases |parts|
  {
    if |parts| == 1 {
      SplitNoSeparator(parts[0], sep);
    } else {
      SplitJoin(parts[1..], sep);
      SplitAppend(parts[0], Join(parts[1..], [sep]), sep);
      SplitNoSeparator(parts[0], sep);
      assert [parts[0]] + parts[1..] == parts;
    }
  }

  /** Joining undoes splitting: the two are inverse on all strings. */
  lemma {:induction false} JoinSplit(s: string, sep: char)
    ensures Join(Split(s, sep), [sep]) == s
    decreases |s|
  {
    if |s| > 0 {
      var rest := Split(s[1..], sep);
      JoinSplit(s[1..], sep);
      if s[0] == sep {
        assert ([""] + rest)[1..] == rest;
        assert s == [sep] + s[1..];
      } else if |rest| == 1 {
        assert s == [s[0]] + s[1..];
      } else {
        var parts := [[s[0]] + rest[0]] + rest[1..];
        assert parts[1..] == rest[1..];
        assert Join(rest, [sep]) == rest[0] + [sep] + Join(rest[1..], [sep]);
        assert s == [s[0]] + s[1..];
      }
    }
  }

  lemma {:induction false} NonEmptyAppend(a: seq<string>, b: seq<string>)
    ensures NonEmpty(a + b) == NonEmpty(a) + NonEmpty(b)
    decreases |a|
  {
    if |a| > 0 {
      assert (a + b)[1..] == a[1..] + b;
      NonEmptyAppend(a[1..], b);
    } else {
      assert a + b == b;
    }
  }

  lemma {:induction false} NonEmptyKeeps(parts: seq<string>)
    requires forall p <- parts :: p != ""
    ensures NonEmpty(parts) == parts
    decreases |parts|
  {
    if |parts| > 0 {
      assert parts[0] in parts;
      assert forall p <- parts[1..] :: p in parts;
      NonEmptyKeeps(parts[1..]);
      assert [parts[0]] + parts[1..] == parts;
    }
  }

  /** The segments of `/` followed by joined segments are those segments. */
  lemma SegmentsOfCanonical(parts: seq<string>)
    requires forall p <- parts :: p != "" && '/' !in p
    ensures Segments("/" + Join(parts, "/")) == parts
  {
    var tail := Join(parts, "/");
    assert "/" + tail == "" + ['/'] + tail;
    SplitAppend("", tail, '/');
    if |parts| == 0 {
      assert NonEmpty(["", ""]) == [];
    } else {
      SplitJoin(parts, '/');
      NonEmptyAppend([""], parts);
      NonEmptyKeeps(parts);
    }
  }

  lemma SegmentsOfRoot()
    ensures Segments("/") == []
  {
    assert "/" == "" + ['/'] + "";
    SplitAppend("", "", '/');
    assert NonEmpty(["", ""]) == [];
  }

  /** Appending a relative argument appends its segments. */
  lemma SegmentsOfChildPath(dir: string, name: string)
    ensures Segments(ChildPath(dir, name)) == Segments(dir) + Segments(name)
  {
    var split := Split(dir, '/');
    if dir == "/" {
      assert ChildPath(dir, name) == "" + ['/'] + name;
      SplitAppend("", name, '/');
      NonEmptyAppend([""], Split(name, '/'));
      SegmentsOfRoot();
    } else {
      assert ChildPath(dir, name) == dir + ['/'] + name;
      SplitAppend(dir, name, '/');
      NonEmptyAppend(split, Split(name, '/'));
    }
  }

  lemma SegmentsOfName(name: string)
    requires name != "" && '/' !in name
    ensures Segments(name) == [name]
  {
    SplitNoSeparator(name, '/');
    assert NonEmpty([name]) == [name] + NonEmpty([]);
  }

  // ---------------------------------------------------------------------
  // Lemmas about the resolver

  /** `cd ..` repeated at least as many times as the working directory has
      segments (and at least once) reaches `/`. */
  lemma {:induction false} AscendReachesRoot(cwd: string, k: nat)
    requires k >= 1 && k >= |Segments(cwd)|
    ensures Ascend(cwd, k) == "/"
    decreases k
  {
    if k == 1 {
      AscendOnce(cwd);
    } else {
      UpDropsOne(cwd);
      AscendReachesRoot(Resolve(cwd, ".."), k - 1);
    }
  }

  /** `cd ..` at `/` stays at `/`. */
  lemma RootIsFixed()
    ensures Resolve("/", "..") == "/"
  {
    SegmentsOfRoot();
    UpFromShallow("/");
  }

  /** One `cd ..` from a directory at most one level deep reaches `/`. */
  lemma AscendOnce(cwd: string)
    requires |Segments(cwd)| <= 1
    ensures Ascend(cwd, 1) == "/"
  {
    UpFromShallow(cwd);
  }

  /** `cd ..` removes one segment, and none from `/`. */
  lemma UpDropsOne(cwd: string)
    ensures |Segments(Resolve(cwd, ".."))| == if |Segments(cwd)| == 0 then 0 else |Segments(cwd)| - 1
  {
  }

  /** `cd ..` from a directory at most one level deep reaches `/`. */
  lemma UpFromShallow(cwd: string)
    requires |Segments(cwd)| <= 1
    ensures Resolve(cwd, "..") == "/"
  {
    assert DropLast(Segments(cwd)) == [];
    assert Resolve(cwd, "..") == "/" + Join([], "/");
  }

  /** `cd name` followed by `cd ..` returns to a canonical directory. */
  lemma UpUndoesDown(cwd: string, name: string)
    requires Canonical(cwd)
    requires IsRelativeName(name) && name != "" && '/' !in name
    ensures Resolve(Resolve(cwd, name), "..") == cwd
  {
    var down := Resolve(cwd, name);
    SegmentsOfName(name);
    assert Segments(down) == Segments(cwd) + [name];
    assert DropLast(Segments(down)) == Segments(cwd);
  }

  /** Resolution never normalises a relative argument: the argument, with
      any `.`, `..`, doubled or trailing slash inside it, ends the result
      verbatim, after a slash that follows the working directory (or the
      root slash). */
  lemma NoInteriorNormalisation(cwd: string, arg: string)
    requires IsRelativeName(arg)
    ensures var r := Resolve(cwd, arg);
      && |r| == (if cwd == "/" then 0 else |cwd|) + 1 + |arg|
      && r[|r| - |arg|..] == arg
      && r[|r| - |arg| - 1] == '/'
      && (cwd != "/" ==> r[..|cwd|] == cwd)
  {
    var r := Resolve(cwd, arg);
    if cwd == "/" {
      assert r == "/" + arg;
    } else {
      assert r == cwd + "/" + arg;
      assert r[..|cwd|] == cwd;
    }
  }

  // ---------------------------------------------------------------------
  // Lemmas about the directory/name split

  /** A child path splits back into its directory and its name. */
  lemma ChildPathParts(dir: string, name: string)
    requires '/' !in name
    ensures NameOf(ChildPath(dir, name)) == name
    ensures DirOf(ChildPath(dir, name)) == if dir == "/" then "" else dir
    ensures dir != "" ==> Parent(ChildPath(dir, name)) == dir
  {
    var p := ChildPath(dir, name);
    var k := |p| - |name| - 1;
    assert p[k] == '/';
    assert forall j :: k < j < |p| ==> p[j] == name[j - k - 1];
    var i := LastIndexOf(p, '/');
    assert i == k;
    assert p[k + 1..] == name;
    if dir == "/" {
      assert p[..k] == "";
    } else {
      assert p[..k] == dir;
    }
  }

  /** A path splits into a directory and a name that rebuild it, unless its
      last slash is the leading one of `//name`. */
  lemma ParentChildPath(p: string)
    requires '/' in p && DirOf(p) != "/"
    ensures ChildPath(Parent(p), NameOf(p)) == p
  {
    var i := LastIndexOf(p, '/');
    assert p == p[..i] + "/" + p[i + 1..];
  }
}

=== FILE: shell.dfy ===
/** The command language of the emulator: how a line is cut into words
    (`cmd.trim().split(/\s+/)`), and what each builtin answers and where it
    leaves the working directory. `Interpret` is the reference meaning of one
    command line; the session's `Execute` method is proved to agree with it. */
module Shell {
  import opened Paths
  import opened FileSystem

  // ---------------------------------------------------------------------
  // Tokenising

  /** The characters JavaScript's `trim` and `\s` both treat as white space:
      the ECMAScript WhiteSpace and LineTerminator code points. */
  predicate IsSpace(c: char)
  {
    || c == ' ' || c == '\t' || c == '\n' || c == '\U{000B}' || c == '\U{000C}' || c == '\r'
    || c == '\U{00A0}' || c == '\U{1680}' || ('\U{2000}' <= c <= '\U{200A}')
    || c == '\U{2028}' || c == '\U{2029}' || c == '\U{202F}' || c == '\U{205F}'
    || c == '\U{3000}' || c == '\U{FEFF}'
  }

  /** `s.trim() === ""`. */
  predicate Blank(s: string)
  {
    forall i | 0 <= i < |s| :: IsSpace(s[i])
  }

  /** A non-empty run of non-space characters. */
  predicate IsWord(w: string)
  {
    w != "" && forall i | 0 <= i < |w| :: !IsSpace(w[i])
  }

  /** Length of the non-space run at the start of `s`. */
  function WordLen(s: string): (k: nat)
    ensures k <= |s|
    ensures forall i | 0 <= i < k :: !IsSpace(s[i])
    ensures k < |s| ==> IsSpace(s[k])
  {
    if |s| == 0 || IsSpace(s[0]) then 0 else 1 + WordLen(s[1..])
  }

  /** The maximal runs of non-space characters of `s`, in order. */
  function Words(s: string): (r: seq<string>)
    ensures forall w <- r :: IsWord(w)
    decreases |s|
  {
    if |s| == 0 then []
    else if IsSpace(s[0]) then Words(s[1..])
    else
      var k := WordLen(s);
      [s[..k]] + Words(s[k..])
  }

  /** `cmd.trim().split(/\s+/)`: the words of the line, or the single empty
      string when the trimmed line is empty. */
  function Tokens(line: string): (r: seq<string>)
    ensures |r| >= 1
    ensures r == [""] <==> Blank(line)
    ensures r != [""] ==> forall w <- r :: IsWord(w)
  {
    WordsBlank(line);
    var ws := Words(line);
    assert ws != [] ==> ws[0] in ws;
    if ws == [] then [""] else ws
  }

  /** A line without words is a blank line, and conversely. */
  lemma {:induction false} WordsBlank(s: string)
    ensures Words(s) == [] <==> Blank(s)
    decreases |s|
  {
    if |s| > 0 {
      WordsBlank(s[1..]);
      if IsSpace(s[0]) {
        assert Blank(s) <==> Blank(s[1..]) by {
          assert forall i | 1 <= i < |s| :: s[i] == s[1..][i - 1];
        }
      }
    }
  }

  /** Leading white space is skipped (the first half of `trim`). */
  lemma {:induction false} WordsSkipBlank(a: string, s: string)
    requires Blank(a)
    ensures Words(a + s) == Words(s)
    decreases |a|
  {
    if |a| > 0 {
      assert IsSpace(a[0]);
      assert (a + s)[0] == a[0] && (a + s)[1..] == a[1..] + s;
      assert Blank(a[1..]) by {
        assert forall i | 0 <= i < |a| - 1 :: a[1..][i] == a[i + 1];
      }
      WordsSkipBlank(a[1..], s);
    } else {
      assert a + s == s;
    }
  }

  /** A word followed by nothing or by white space is cut off whole. */
  lemma {:induction false} WordLenOfWord(w: string, rest: string)
    requires IsWord(w)
    requires rest == "" || IsSpace(rest[0])
    ensures WordLen(w + rest) == |w|
    decreases |w|
  {
    if |w| > 1 {
      assert (w + rest)[1..] == w[1..] + rest;
      WordLenOfWord(w[1..], rest);
    } else {
      assert (w + rest)[1..] == rest;
    }
  }

  lemma WordsCons(w: string, rest: string)
    requires IsWord(w)
    requires rest == "" || IsSpace(rest[0])
    ensures Words(w + rest) == [w] + Words(rest)
  {
    WordLenOfWord(w, rest);
    assert (w + rest)[..|w|] == w;
    assert (w + rest)[|w|..] == rest;
  }

  /** Trailing white space is dropped (the second half of `trim`). */
  lemma {:induction false} WordsDropBlank(s: string, b: string)
    requires Blank(b)
    ensures Words(s + b) == Words(s)
    decreases |s|
  {
    if |s| == 0 {
      assert s + b == b;
      WordsBlank(b);
    } else if IsSpace(s[0]) {
      assert (s + b)[1..] == s[1..] + b;
      WordsDropBlank(s[1..], b);
    } else {
      var k := WordLen(s);
      var w, t := s[..k], s[k..];
      assert s == w + t && s + b == w + (t + b);
      assert t + b == "" || IsSpace((t + b)[0]) by {
        if t == "" {
          assert t + b == b;
        }
      }
      WordsCons(w, t);
      WordsCons(w, t + b);
      WordsDropBlank(t, b);
    }
  }

  /** Words separated by single spaces are read back exactly: tokenising
      undoes joining. */
  lemma {:induction false} WordsOfJoin(ws: seq<string>)
    requires forall w <- ws :: IsWord(w)
    ensures Words(Join(ws, " ")) == ws
    decreases |ws|
  {
    if |ws| == 1 {
      WordsCons(ws[0], "");
      assert ws[0] + "" == ws[0];
    } else if |ws| > 1 {
      var rest := Join(ws[1..], " ");
      assert ws[0] + " " + rest == ws[0] + (" " + rest);
      WordsCons(ws[0], " " + rest);
      assert (" " + rest)[1..] == rest;
      WordsOfJoin(ws[1..]);
    }
  }

  /** Surrounding white space never changes how a line is read. */
  lemma PaddingIgnored(a: string, s: string, b: string)
    requires Blank(a) && Blank(b)
    ensures Tokens(a + s + b) == Tokens(s)
  {
    WordsSkipBlank(a, s + b);
    assert a + s + b == a + (s + b);
    WordsDropBlank(s, b);
  }

  // ---------------------------------------------------------------------
  // The builtins

  const HelpText: string :=
    "Available commands:\n"
    + "  ls [path]     - List directory contents\n"
    + "  cd [path]     - Change directory\n"
    + "  pwd           - Print working directory\n"
    + "  cat [file]    - Display file contents\n"
    + "  clear         - Clear terminal\n"
    + "  help          - Show this help message"

  /** What a command line does: empty the history, or append an entry with
      `result` and continue in directory `cwd`. */
  datatype Outcome = Cleared | Output(result: string, cwd: string)

  /** The first argument, or `""` when there is none (a token is never empty,
      so `""` is exactly JavaScript's falsy `args[0]`). */
  function FirstArg(parts: seq<string>): string
  {
    if |parts| > 1 then parts[1] else ""
  }

  /** `ls [arg]`. */
  function ListResult(nodes: map<string, Node>, cwd: string, arg: string): string
  {
    var p := if arg != "" then Resolve(cwd, arg) else cwd;
    if p !in nodes then
      "ls: cannot access '" + (if arg != "" then arg else p) + "': No such file or directory"
    else if nodes[p].kind != Dir then
      (if arg != "" then arg else Last(Split(p, '/')))
    else Join(nodes[p].children, "  ")
  }

  function Last(parts: seq<string>): string
    requires |parts| > 0
  {
    parts[|parts| - 1]
  }

  /** `cd [arg]`: the text of the entry and the directory afterwards. */
  function ChangeDir(nodes: map<string, Node>, cwd: string, arg: string): Outcome
  {
    if arg == "" then Output("", HomeDir)
    else
      var p := Resolve(cwd, arg);
      if p !in nodes then Output("cd: " + arg + ": No such file or directory", cwd)
      else if nodes[p].kind != Dir then Output("cd: " + arg + ": Not a directory", cwd)
      else Output("", p)
  }

  /** `cat [arg]`. */
  function CatResult(nodes: map<string, Node>, cwd: string, arg: string): string
  {
    if arg == "" then "cat: missing file operand"
    else
      var p := Resolve(cwd, arg);
      if p !in nodes then "cat: " + arg + ": No such file or directory"
      else if nodes[p].kind == Dir then "cat: " + arg + ": Is a directory"
      else nodes[p].content
  }

  /** The meaning of one command line in directory `cwd`; arguments after
      the first are ignored, as in the source. */
  function Interpret(nodes: map<string, Node>, cwd: string, line: string): Outcome
  {
    var parts := Tokens(line);
    var arg := FirstArg(parts);
    match parts[0]
    case "ls" => Output(ListResult(nodes, cwd, arg), cwd)
    case "cd" => ChangeDir(nodes, cwd, arg)
    case "pwd" => Output(cwd, cwd)
    case "cat" => Output(CatResult(nodes, cwd, arg), cwd)
    case "clear" => Cleared
    case "help" => Output(HelpText, cwd)
    case "" => Output("", cwd)
    case _ => Output(parts[0] + ": command not found", cwd)
  }

  const Builtins: set<string> := {"ls", "cd", "pwd", "cat", "clear", "help"}

  // ---------------------------------------------------------------------
  // Properties of the interpreter

  /** Only `clear` clears, and it always does. */
  lemma ClearIffClearCommand(nodes: map<string, Node>, cwd: string, line: string)
    ensures Interpret(nodes, cwd, line).Cleared? <==> Tokens(line)[0] == "clear"
  {
  }

  /** A blank line is the empty command: an empty entry, same directory. */
  lemma BlankLineIsEmptyCommand(nodes: map<string, Node>, cwd: string, line: string)
    requires Blank(line)
    ensures Interpret(nodes, cwd, line) == Output("", cwd)
  {
  }

  /** A first word that is no builtin is reported and changes nothing. */
  lemma UnknownCommand(nodes: map<string, Node>, cwd: string, line: string)
    requires Tokens(line)[0] !in Builtins
    requires !Blank(line)
    ensures Interpret(nodes, cwd, line) == Output(Tokens(line)[0] + ": command not found", cwd)
  {
    assert Tokens(line)[0] in Tokens(line);
  }

  /** Only `cd` moves the working directory. */
  lemma OnlyCdMoves(nodes: map<string, Node>, cwd: string, line: string)
    requires Interpret(nodes, cwd, line).Output?
    requires Interpret(nodes, cwd, line).cwd != cwd
    ensures Tokens(line)[0] == "cd"
  {
  }

  /** `cd` alone goes home from anywhere. */
  lemma CdAloneGoesHome(nodes: map<string, Node>, cwd: string, line: string)
    requires Tokens(line) == ["cd"]
    ensures Interpret(nodes, cwd, line) == Output("", HomeDir)
  {
  }

  /** `cd arg` moves exactly when the target is a directory; otherwise it
      reports why and stays. */
  lemma CdMovesIffDirectory(nodes: map<string, Node>, cwd: string, line: string)
    requires |Tokens(line)| > 1 && Tokens(line)[0] == "cd"
    ensures var arg, o := Tokens(line)[1], Interpret(nodes, cwd, line);
      var p := Resolve(cwd, arg);
      && (IsDir(nodes, p) ==> o == Output("", p))
      && (p !in nodes ==> o == Output("cd: " + arg + ": No such file or directory", cwd))
      && (IsFile(nodes, p) ==> o == Output("cd: " + arg + ": Not a directory", cwd))
  {
    assert Tokens(line)[1] in Tokens(line);
  }

  /** Starting in a directory, every command ends in a directory, provided
      the home directory exists. */
  lemma CwdStaysADirectory(nodes: map<string, Node>, cwd: string, line: string)
    requires IsDir(nodes, cwd) && IsDir(nodes, HomeDir)
    ensures var o := Interpret(nodes, cwd, line); o.Output? ==> IsDir(nodes, o.cwd)
  {
  }

  /** `cat` never prints a directory: it prints a file's content verbatim,
      and reports a directory as one. */
  lemma CatShowsOnlyFiles(nodes: map<string, Node>, cwd: string, line: string)
    requires |Tokens(line)| > 1 && Tokens(line)[0] == "cat"
    ensures var arg, o := Tokens(line)[1], Interpret(nodes, cwd, line);
      var p := Resolve(cwd, arg);
      && (IsDir(nodes, p) ==> o == Output("cat: " + arg + ": Is a directory", cwd))
      && (IsFile(nodes, p) ==> o == Output(nodes[p].content, cwd))
      && (p !in nodes ==> o == Output("cat: " + arg + ": No such file or directory", cwd))
  {
    assert Tokens(line)[1] in Tokens(line);
  }

  /** Without an operand `cat` complains in any working directory, and `ls`
      lists the working directory when it is one. */
  lemma NoOperand(nodes: map<string, Node>, cwd: string, line: string)
    requires |Tokens(line)| == 1
    ensures Tokens(line)[0] == "cat" ==> Interpret(nodes, cwd, line) == Output("cat: missing file operand", cwd)
    ensures Tokens(line)[0] == "ls" && IsDir(nodes, cwd) ==> Interpret(nodes, cwd, line) == Output(Join(nodes[cwd].children, "  "), cwd)
  {
  }

  /** `ls arg` reports a missing target by the argument as typed, echoes
      the argument for a file, and lists a directory's children in order,
      separated by two spaces. */
  lemma LsCases(nodes: map<string, Node>, cwd: string, line: string)
    requires |Tokens(line)| > 1 && Tokens(line)[0] == "ls"
    ensures var arg, o := Tokens(line)[1], Interpret(nodes, cwd, line);
      var p := Resolve(cwd, arg);
      && (p !in nodes ==> o == Output("ls: cannot access '" + arg + "': No such file or directory", cwd))
      && (IsFile(nodes, p) ==> o == Output(arg, cwd))
      && (IsDir(nodes, p) ==> o == Output(Join(nodes[p].children, "  "), cwd))
  {
    assert Tokens(line)[1] in Tokens(line);
  }

  /** `ls` without an operand in a working directory that is no entry names
      the directory itself in its complaint. */
  lemma LsOfMissingDirectory(nodes: map<string, Node>, cwd: string, line: string)
    requires Tokens(line) == ["ls"] && cwd !in nodes
    ensures Interpret(nodes, cwd, line) == Output("ls: cannot access '" + cwd + "': No such file or directory", cwd)
  {
  }

  /** The line `command arg`, as a user types it. */
  function Line(command: string, arg: string): string
  {
    command + " " + arg
  }

  lemma TokensOfLine(command: string, arg: string)
    requires IsWord(command) && IsWord(arg)
    ensures Tokens(Line(command, arg)) == [command, arg]
  {
    WordsCons(command, " " + arg);
    assert command + " " + arg == command + (" " + arg);
    assert (" " + arg)[1..] == arg;
    WordsCons(arg, "");
    assert arg + "" == arg;
  }

  lemma CdLine(nodes: map<string, Node>, cwd: string, arg: string)
    requires IsWord(arg)
    ensures Interpret(nodes, cwd, Line("cd", arg)) == ChangeDir(nodes, cwd, arg)
  {
    TokensOfLine("cd", arg);
  }

  lemma CatLine(nodes: map<string, Node>, cwd: string, arg: string)
    requires IsWord(arg)
    ensures Interpret(nodes, cwd, Line("cat", arg)) == Output(CatResult(nodes, cwd, arg), cwd)
  {
    TokensOfLine("cat", arg);
  }

  /** Whatever `ls` lists in a well-formed tree can be entered or read by
      name: `cd name` enters a listed directory, `cat name` prints a listed
      file, and neither reports a missing entry. */
  lemma ListedNamesResolve(nodes: map<string, Node>, cwd: string, name: string)
    requires TreeShaped(nodes) && IsDir(nodes, cwd)
    requires name in nodes[cwd].children
    requires IsWord(name) && name != "." && name != ".."
    ensures var p := ChildPath(cwd, name);
      && p in nodes
      && (IsDir(nodes, p) ==> Interpret(nodes, cwd, Line("cd", name)) == Output("", p))
      && (IsFile(nodes, p) ==> Interpret(nodes, cwd, Line("cat", name)) == Output(nodes[p].content, cwd))
  {
    var p := ChildPath(cwd, name);
    assert '/' !in name && p in nodes;
    assert Resolve(cwd, name) == p by {
      assert name[0] != '/';
    }
    CdLine(nodes, cwd, name);
    CatLine(nodes, cwd, name);
  }

  /** `cd name` followed by `cd ..` comes back, from a directory written
      without empty segments. */
  lemma CdDownThenUp(nodes: map<string, Node>, cwd: string, name: string)
    requires Canonical(cwd) && IsDir(nodes, cwd)
    requires IsWord(name) && '/' !in name && name != "." && name != ".."
    requires IsDir(nodes, Resolve(cwd, name))
    ensures Interpret(nodes, cwd, Line("cd", name)) == Output("", Resolve(cwd, name))
    ensures Interpret(nodes, Resolve(cwd, name), Line("cd", "..")) == Output("", cwd)
  {
    var down := Resolve(cwd, name);
    assert IsWord("..");
    CdLine(nodes, cwd, name);
    CdLine(nodes, down, "..");
    UpUndoesDown(cwd, name);
    assert ChangeDir(nodes, down, "..") == Output("", cwd);
  }
}

=== FILE: terminal.dfy ===
/** The emulator's session: the filesystem, the working directory and the
    history of entries, changed in place by user commands and by the
    haunting events. Every random choice of the source is an index argument
    here, constrained to the range the source draws it from. */
module Terminal {
  import opened Paths
  import opened FileSystem
  import opened Shell

  /** One line of the history. `haunted` is the source's `ghost` flag: the
      entry came from a haunting event rather than from the user. */
  datatype Entry = Entry(cmd: string, cwd: string, result: string, haunted: bool)

  /** A file a haunting can plant. */
  datatype Planted = Planted(path: string, content: string)

  const GhostFiles: seq<Planted> := [
    Planted("/home/user/WHO_AM_I.txt",
      "You should not have opened this.\n\nI have been waiting.\n\n...waiting for you."),
    Planted("/home/user/documents/HELP.txt",
      "HELP HELP HELP HELP HELP\nHELP HELP HELP HELP HELP\nHELP HELP HELP HELP HELP"),
    Planted("/home/user/memory.txt",
      "Do you remember what you did?\n\nI remember.\n\nI remember everything."),
    Planted("/home/user/documents/forgotten.txt",
      "They told me you would come back.\nBut you never did.\nWhy?"),
    Planted("/var/log/????.log",
      "[CORRUPTED DATA]\n[ENTITY DETECTED]\n[SYSTEM COMPROMISED]\n[\U{0337}\U{0322}\U{031B}\U{0332}\U{0332}\U{0325}\U{0332}\U{035A}\U{0317}\U{034D}\U{0316}\U{0354}\U{0320}\U{030F}\U{0308}\U{0301}\U{0300}\U{030A}\U{033D}\U{0312}\U{0352}\U{034C}\U{034B}\U{034C}\U{031A}\U{035C}R\U{0335}\U{0322}\U{033C}\U{0339}\U{0317}\U{0329}\U{0354}\U{0316}\U{0353}\U{0359}\U{0333}\U{0302}\U{0342}\U{0305}\U{0304}\U{0308}\U{0301}\U{035C}\U{0360}U\U{0338}\U{0327}\U{0328}\U{0318}\U{0347}\U{0324}\U{0333}\U{0359}\U{035A}\U{031D}\U{034E}\U{0310}\U{030A}\U{0308}\U{0301}\U{030F}\U{0300}\U{0315}\U{035C}N\U{0335}\U{0321}\U{0322}\U{031B}\U{035A}\U{033C}\U{0316}\U{032C}\U{035A}\U{0333}\U{0348}\U{032D}\U{0314}\U{0309}\U{030B}\U{030C}\U{0305}\U{0308}\U{0301}\U{030B}]")
  ]

  const GhostCommands: seq<string> := ["ls", "pwd", "cat readme.txt", "help", "cd .."]

  const GhostDirs: seq<string> := ["/home/user/documents", "/var/log", "/etc", "/home/user"]

  const HauntedMessages: seq<string> := [
    "help me", "i am still here", "why did you leave me", "get out", "behind you",
    "do you remember", "it hurts", "hello?", "please", "ERROR: ENTITY_NOT_FOUND"
  ]

  /** The entry a haunting appends directly, bypassing the interpreter. */
  function GhostEntry(text: string): Entry
  {
    Entry("", "", text, true)
  }

  /** A planted path is a name under a seed directory other than `/`, so
      its directory part is that directory. */
  lemma PlantedUnder(p: string, d: string, n: string)
    requires d in SeedDirs && d != "/" && d != "" && '/' !in n
    requires p == ChildPath(d, n)
    ensures DirOf(p) in SeedDirs && DirOf(p) != "/" && ChildPath(DirOf(p), NameOf(p)) == p
  {
    ChildPathParts(d, n);
  }

  /** The directory part and the name of every planted path: each lives in
      a seed directory other than `/`. */
  lemma GhostFileParts(i: nat)
    requires i < |GhostFiles|
    ensures var p := GhostFiles[i].path;
      && DirOf(p) in SeedDirs && DirOf(p) != "/"
      && ChildPath(DirOf(p), NameOf(p)) == p
  {
    if i == 0 {
      GhostFilePath0();
      PlantedUnder(GhostFiles[0].path, "/home/user", "WHO_AM_I.txt");
    } else if i == 1 {
      GhostFilePath1();
      PlantedUnder(GhostFiles[1].path, "/home/user/documents", "HELP.txt");
    } else if i == 2 {
      GhostFilePath2();
      PlantedUnder(GhostFiles[2].path, "/home/user", "memory.txt");
    } else if i == 3 {
      GhostFilePath3();
      PlantedUnder(GhostFiles[3].path, "/home/user/documents", "forgotten.txt");
    } else {
      GhostFilePath4();
      PlantedUnder(GhostFiles[4].path, "/var/log", "????.log");
    }
  }

  lemma GhostFilePath0()
    ensures GhostFiles[0].path == ChildPath("/home/user", "WHO_AM_I.txt")
    ensures "/home/user" in SeedDirs && '/' !in "WHO_AM_I.txt"
  {
  }

  lemma GhostFilePath1()
    ensures GhostFiles[1].path == ChildPath("/home/user/documents", "HELP.txt")
    ensures "/home/user/documents" in SeedDirs && '/' !in "HELP.txt"
  {
  }

  lemma GhostFilePath2()
    ensures GhostFiles[2].path == ChildPath("/home/user", "memory.txt")
    ensures "/home/user" in SeedDirs && '/' !in "memory.txt"
  {
  }

  lemma GhostFilePath3()
    ensures GhostFiles[3].path == ChildPath("/home/user/documents", "forgotten.txt")
    ensures "/home/user/documents" in SeedDirs && '/' !in "forgotten.txt"
  {
  }

  lemma GhostFilePath4()
    ensures GhostFiles[4].path == ChildPath("/var/log", "????.log")
    ensures "/var/log" in SeedDirs && '/' !in "????.log"
  {
  }

  /** The two planted files whose names carry `WHO_AM_I` and `HELP` can
      never be chosen for deletion. */
  lemma ProtectedGhostFiles(s: Store)
    requires s.Valid()
    ensures GhostFiles[0].path !in RemovalCandidates(s)
    ensures GhostFiles[1].path !in RemovalCandidates(s)
  {
    ContainsAt(GhostFiles[0].path, "WHO_AM_I", 11);
    ContainsAt(GhostFiles[1].path, "HELP", 21);
  }

  /** What one command line does to the working directory and history. */
  function Step(nodes: map<string, Node>, cwd: string, history: seq<Entry>, line: string, haunted: bool)
    : (string, seq<Entry>)
  {
    match Interpret(nodes, cwd, line)
    case Cleared => (cwd, [])
    case Output(result, next) => (next, history + [Entry(line, cwd, result, haunted)])
  }

  /** Every command but `clear` appends exactly one entry, which records the
      line as typed and the directory it ran in; `clear` leaves nothing. */
  lemma StepAppendsOneEntry(nodes: map<string, Node>, cwd: string, history: seq<Entry>, line: string, haunted: bool)
    ensures var (_, h) := Step(nodes, cwd, history, line, haunted);
      && (Tokens(line)[0] == "clear" ==> h == [])
      && (Tokens(line)[0] != "clear" ==>
            && |h| == |history| + 1 && h[..|history|] == history
            && h[|history|].cmd == line && h[|history|].cwd == cwd && h[|history|].haunted == haunted)
  {
    ClearIffClearCommand(nodes, cwd, line);
  }

  /** The kinds of events the haunting timer picks from. */
  datatype Haunting =
    | ReplayCommand(command: nat)
    | Whisper(message: nat)
    | Materialize(file: nat)
    | Vanish(pick: nat)
    | Glitch
    | Wander(dir: nat)

  class Session {
    var fs: Store
    var cwd: string
    var history: seq<Entry>

    /** The filesystem is a tree, the seed's directories are still there,
        and the working directory is one of the tree's directories. */
    ghost predicate Valid()
      reads this
    {
      WellFormed(fs) && HasSeedDirs(fs.nodes) && IsDir(fs.nodes, cwd)
    }

    constructor ()
      ensures Valid()
      ensures fs == Seed && cwd == HomeDir && history == []
    {
      fs := Seed;
      cwd := HomeDir;
      history := [];
      SeedWellFormed();
      SeedHasSeedDirs();
    }

    /** `executeCommand`: run one line, recording it as `haunted` or not. */
    method Execute(line: string, haunted: bool)
      requires Valid()
      modifies this
      ensures Valid()
      ensures fs == old(fs)
      ensures (cwd, history) == Step(old(fs.nodes), old(cwd), old(history), line, haunted)
    {
      CwdStaysADirectory(fs.nodes, cwd, line);
      var parts := Tokens(line);
      var command := parts[0];
      var arg := FirstArg(parts);
      var at := cwd;
      var result: string;
      if command == "ls" {
        var target := if arg != "" then Resolve(cwd, arg) else cwd;
        if target !in fs.nodes {
          result := "ls: cannot access '" + (if arg != "" then arg else target) + "': No such file or directory";
        } else if fs.nodes[target].kind != Dir {
          if arg != "" {
            result := arg;
          } else {
            // Without an operand the target is the working directory, which
            // `Valid()` keeps a directory: the source's last-segment case
            // cannot arise in a session.
            assert false;
          }
        } else {
          result := Join(fs.nodes[target].children, "  ");
        }
      } else if command == "cd" {
        if arg == "" {
          cwd := HomeDir;
          result := "";
        } else {
          var target := Resolve(cwd, arg);
          if target !in fs.nodes {
            result := "cd: " + arg + ": No such file or directory";
          } else if fs.nodes[target].kind != Dir {
            result := "cd: " + arg + ": Not a directory";
          } else {
            cwd := target;
            result := "";
          }
        }
      } else if command == "pwd" {
        result := cwd;
      } else if command == "cat" {
        if arg == "" {
          result := "cat: missing file operand";
        } else {
          var target := Resolve(cwd, arg);
          if target !in fs.nodes {
            result := "cat: " + arg + ": No such file or directory";
          } else if fs.nodes[target].kind == Dir {
            result := "cat: " + arg + ": Is a directory";
          } else {
            result := fs.nodes[target].content;
          }
        }
      } else if command == "clear" {
        history := [];
        return;
      } else if command == "help" {
        result := HelpText;
      } else if command == "" {
        result := "";
      } else {
        result := command + ": command not found";
      }
      history := history + [Entry(line, at, result, haunted)];
    }

    /** Enter in the input box: a blank line is dropped without a trace,
        anything else is executed as the user's command. */
    method Submit(input: string)
      requires Valid()
      modifies this
      ensures Valid()
      ensures fs == old(fs)
      ensures Blank(input) ==> cwd == old(cwd) && history == old(history)
      ensures !Blank(input) ==> (cwd, history) == Step(old(fs.nodes), old(cwd), old(history), input, false)
    {
      if !Blank(input) {
        Execute(input, false);
      }
    }

    /** `addGhostFile` with its random pick made explicit: plant
        `GhostFiles[i]` unless its name is already listed, and return its
        path. The file is there afterwards, and is the planted one when it
        was not there before. */
    method InsertGhostFile(i: nat) returns (path: string)
      requires Valid() && i < |GhostFiles|
      modifies this
      ensures Valid()
      ensures path == GhostFiles[i].path
      ensures fs == InsertEntry(old(fs), path, GhostFiles[i].content)
      ensures cwd == old(cwd) && history == old(history)
      ensures path in fs.nodes
      ensures path !in old(fs.nodes) ==> fs.nodes[path] == FileNode(GhostFiles[i].content)
    {
      var planted := GhostFiles[i];
      GhostFileParts(i);
      InsertKeepsDirectories(fs, planted.path, planted.content, cwd);
      InsertKeepsWellFormed(fs, planted.path, planted.content);
      var dirPath := DirOf(planted.path);
      var fileName := NameOf(planted.path);
      if dirPath in fs.nodes && fileName !in fs.nodes[dirPath].children {
        fs := fs.Set(dirPath, fs.nodes[dirPath].(children := fs.nodes[dirPath].children + [fileName]));
        fs := fs.Set(planted.path, FileNode(planted.content));
      }
      path := planted.path;
    }

    /** The update of `removeRandomFile`: when the file's directory is an
        entry, filter the name out of its children and delete the file. */
    method RemoveFile(path: string)
      requires Valid() && IsFile(fs.nodes, path)
      modifies this
      ensures Valid()
      ensures fs == RemoveEntry(old(fs), path)
      ensures cwd == old(cwd) && history == old(history)
    {
      RemoveKeepsDirectories(fs, path, cwd);
      var dirPath := DirOf(path);
      var fileName := NameOf(path);
      if dirPath in fs.nodes {
        fs := fs.Set(dirPath, fs.nodes[dirPath].(children := Without(fs.nodes[dirPath].children, fileName)));
        fs := fs.Delete(path);
      }
    }

    /** `removeRandomFile` with its random pick made explicit: when there is
        a deletion candidate, delete the `pick`-th. */
    method RemoveRandomFile(pick: nat)
      requires Valid()
      requires pick < |RemovalCandidates(fs)| || RemovalCandidates(fs) == []
      modifies this
      ensures Valid()
      ensures var c := RemovalCandidates(old(fs));
        fs == if c == [] then old(fs) else RemoveEntry(old(fs), c[pick])
      ensures cwd == old(cwd) && history == old(history)
    {
      var paths := RemovalCandidates(fs);
      if |paths| > 0 {
        assert paths[pick] in paths;
        RemoveFile(paths[pick]);
      }
    }

    /** The haunting's change of directory to one of `GhostDirs`. */
    method GhostCd(i: nat)
      requires Valid() && i < |GhostDirs|
      modifies this
      ensures Valid()
      ensures cwd == GhostDirs[i]
      ensures fs == old(fs) && history == old(history)
    {
      cwd := GhostDirs[i];
    }

    /** `hauntedEvent`: one event, with every random choice given. */
    method Haunt(h: Haunting)
      requires Valid()
      requires h.ReplayCommand? ==> h.command < |GhostCommands|
      requires h.Whisper? ==> h.message < |HauntedMessages|
      requires h.Materialize? ==> h.file < |GhostFiles|
      requires h.Vanish? ==> h.pick < |RemovalCandidates(fs)| || RemovalCandidates(fs) == []
      requires h.Wander? ==> h.dir < |GhostDirs|
      modifies this
      ensures Valid()
      ensures h.ReplayCommand? ==>
        && fs == old(fs)
        && (cwd, history) == Step(old(fs.nodes), old(cwd), old(history), GhostCommands[h.command], true)
      ensures h.Whisper? ==>
        && fs == old(fs) && cwd == old(cwd)
        && history == old(history) + [GhostEntry("\n>>> " + HauntedMessages[h.message] + " <<<\n")]
      ensures h.Materialize? ==>
        && fs == InsertEntry(old(fs), GhostFiles[h.file].path, GhostFiles[h.file].content)
        && cwd == old(cwd)
        && history == old(history) + [GhostEntry("[FILE MATERIALIZED: " + GhostFiles[h.file].path + "]")]
      ensures h.Vanish? ==>
        && (var c := RemovalCandidates(old(fs));
            fs == if c == [] then old(fs) else RemoveEntry(old(fs), c[h.pick]))
        && cwd == old(cwd)
        && history == old(history) + [GhostEntry("[FILE DELETED]")]
      ensures h.Glitch? ==> fs == old(fs) && cwd == old(cwd) && history == old(history)
      ensures h.Wander? ==> fs == old(fs) && cwd == GhostDirs[h.dir] && history == old(history)
    {
      match h
      case ReplayCommand(i) =>
        Execute(GhostCommands[i], true);
      case Whisper(i) =>
        history := history + [GhostEntry("\n>>> " + HauntedMessages[i] + " <<<\n")];
      case Materialize(i) =>
        var path := InsertGhostFile(i);
        history := history + [GhostEntry("[FILE MATERIALIZED: " + path + "]")];
      case Vanish(pick) =>
        RemoveRandomFile(pick);
        history := history + [GhostEntry("[FILE DELETED]")];
      case Glitch =>
      case Wander(i) =>
        GhostCd(i);
    }
  }
}
